=== FILE: README.md ===
# Slider value engine, in Dafny

A model of the value and position engine of the `Slider` React component of
react-range-slider (`js/components/Slider/index.js`). The slider lets a user
pick a number in `[min, max]`. The user can click or touch the track, or step
the handle. The slider reports the value to its host through `onChange` and
`afterChange`.

The model is functional. The component state (`value`, `trackWidth`,
`handleWidth`, and the instance field `trackLeft`) is an immutable record with
`Option` fields. Every operation maps `(state, props, input)` to the next state
plus the list of host callbacks it calls. Numbers are exact `real`s.

Modules, leaves first:

- `Common` (common.dfy): `Option` for `undefined`, the assumed
  `getValueOrAlt`, and JavaScript truthiness of a possibly-undefined number.
- `JsNumbers` (js_numbers.dfy): JavaScript's truncating `%` over reals
  (`JsRem`), with the three properties that determine it.
- `ValueModel` (value_model.dfy): `Bounds`, `_getValue` (`Clamp`) and
  `_getStepValue` (`Snap`).
- `SliderState` (slider_state.dfy): props, state and events. It also holds the
  constructor, `componentWillReceiveProps`, `_setFactor`, `_setHandleWidth`,
  `_updateState`, `_onChange` and `_afterChange`.
- `Geometry` (geometry.dfy): the factor and handle offset that `render`
  computes, and the map from a pointer position to a value.
- `Slider` (slider.dfy): `_handleMove` and `_moveHandleToPosition`.
- `Session` (session.dfy): the component as a state machine over a sequence of
  inputs, with invariants proved by induction.

Assumptions about code outside this model. `utils/common` is not part of this
model. `getValueOrAlt(v, alt)` is assumed to be `v` when `v` is defined and
`alt` otherwise. `has(props, 'value')` is assumed true exactly when the props
object has a `value` key, even one holding `undefined`; `ValueProp` models
this as `Absent | Present(Option<real>)`.

Behaviour of the source worth knowing:

- Controlled mode is not fixed at construction. `_updateState` and
  `componentWillReceiveProps` test `has(props, 'value')` on the props current
  at each call, so `Controlled` reads the current props.
- `_moveHandleToPosition` snaps first and clamps second. `ClampThenSnapCanLeaveRange`
  shows why the other order is wrong.
- `afterChange` after a pointer move reports the new value itself.
  `getValueOrAlt(newValue, state.value)` falls back to the state only when its
  argument is `undefined`, and `newValue` never is.
- The step snap uses JavaScript's truncating `%`. For a non-negative candidate
  it rounds to the nearest multiple of the step, ties upward. A negative
  candidate always rounds up (toward zero), which can be almost a whole step
  away. `SnapNegativeIsCeiling` and `NegativePointerRoundsUp` show this. Only a
  slider with `min < 0` can reach it.
- The step move clamps but does not snap. Its baseline is the raw stored value:
  an unset value is `!==` every number. The pointer move's baseline is the
  value or `min`, unclamped.

## Model

| member | source | states |
|---|---|---|
| JsNumbers.JsRem | js/components/Slider/index.js:139 | `position % step` differs from `position` by a whole number of steps, is smaller than the step in magnitude, and has the sign of `position` |
| JsNumbers.JsRemUnique | js/components/Slider/index.js:139 | those three properties determine the JavaScript remainder uniquely |
| ValueModel.Clamp | js/components/Slider/index.js:146-154 | when `min <= max` the result lies in `[min, max]` and is the point of the range nearest the input; an input already in range is returned unchanged |
| ValueModel.ClampIdempotent | js/components/Slider/index.js:146-154 | clamping twice is clamping once |
| ValueModel.Snap | js/components/Slider/index.js:137-144 | the snapped value is a multiple of the step, less than one step from the position; for a non-negative position it is within half a step, and a tie rounds up |
| ValueModel.SnapFixesGrid | js/components/Slider/index.js:137-144 | a position already on the step grid is returned unchanged |
| ValueModel.SnapNearest | js/components/Slider/index.js:137-144 | for a non-negative position no multiple of the step is nearer than the snapped value |
| ValueModel.SnapNegativeIsCeiling | js/components/Slider/index.js:137-144 | for a negative position the snapped value is the least multiple of the step not below it |
| ValueModel.SnapNegativeNotNearest | js/components/Slider/index.js:139-143 | with step 1, -1.9 snaps to -1 although -2 is nearer |
| Common.GetValueOrAlt | js/components/Slider/index.js:193 | `getValueOrAlt(v, alt)`: `v` when it is defined, `alt` when it is `undefined` (assumed; its definition is outside this model) |
| Common.Truthy | js/components/Slider/index.js:194 | JavaScript truthiness of a possibly-undefined number: `undefined` and 0 are falsy, every other number is truthy |
| SliderState.Controlled | js/components/Slider/index.js:157 | `has(props, 'value')`: the props carry a `value` key, even one holding `undefined` |
| SliderState.Enabled | js/components/Slider/index.js:122 | `!disabled && !readOnly` |
| SliderState.Init | js/components/Slider/index.js:48-59 | the initial value is the `value` prop when present (even `undefined`), else a truthy `defaultValue`, else unset; nothing is measured |
| SliderState.InitIgnoresZeroDefault | js/components/Slider/index.js:53-54 | a `defaultValue` of 0 leaves the value unset |
| SliderState.ReceiveProps | js/components/Slider/index.js:63-69 | props carrying `value` overwrite the stored value with it, `undefined` included; props without it change nothing; geometry is never touched |
| SliderState.HostValueWins | js/components/Slider/index.js:63-69 | with a host value, the result does not depend on the value stored before, and a repeated update is idempotent |
| SliderState.SetTrack | js/components/Slider/index.js:75-81 | a track measurement records its width and left edge, leaving value and handle width alone |
| SliderState.LastTrackMeasurementWins | js/components/Slider/index.js:75-81 | a later track measurement fully replaces an earlier one |
| SliderState.SetHandleWidth | js/components/Slider/index.js:83-89 | a handle width is recorded only while the stored width is falsy; otherwise the state is unchanged |
| SliderState.FirstHandleMeasurementWins | js/components/Slider/index.js:83-89 | after a non-zero handle width is stored, later measurements are ignored; a zero width does not lock it |
| SliderState.UpdateState | js/components/Slider/index.js:156-162 | an internal write sets the value only when the props lack `value`; under a controlled host the state is unchanged |
| SliderState.OnChangeCall | js/components/Slider/index.js:164-170 | `onChange` is called exactly once when supplied, and not at all otherwise, with the given value |
| SliderState.AfterChangeCall | js/components/Slider/index.js:172-178 | `afterChange` is called exactly once when supplied, and not at all otherwise, reporting the argument if defined and the stored value otherwise |
| Geometry.DisplayValue | js/components/Slider/index.js:193-203 | the displayed value is the stored value or `min`, clamped into range: an in-range value is shown as is, a value below `min` as `min`, one above `max` as `max` |
| Geometry.Measured | js/components/Slider/index.js:194 | `trackWidth && handleWidth`: both stored widths are truthy |
| Geometry.Factor | js/components/Slider/index.js:182-196 | the factor is 1 unless both widths are truthy; then the whole range spans the track width less the handle width |
| Geometry.Render | js/components/Slider/index.js:180-206 | offset and `left` are 0 until both widths are truthy; then the offset is the displayed value's distance from `min` times the factor, and `left` is that offset as a percentage of the track width |
| Geometry.RenderIsLinear | js/components/Slider/index.js:194-205 | `left` is the covered share of the range times `100 * (trackWidth - handleWidth) / trackWidth` |
| Geometry.RenderOffsetBounds | js/components/Slider/index.js:194-206 | when `max > min` and the handle has a non-negative width no greater than the track's, `left` lies in `[0, 100 * (trackWidth - handleWidth) / trackWidth]` |
| Geometry.PointerValue | js/components/Slider/index.js:125-127 | the unsnapped value under the pointer is `min` plus its distance from half a handle into the track, divided by the factor |
| Geometry.PointerAtHandleCentre | js/components/Slider/index.js:125-127 | a pointer at the centre of the rendered handle maps back to the displayed value |
| Geometry.PointerCandidate | js/components/Slider/index.js:126-128 | the pointer candidate is in range, and on the step grid unless it is a bound |
| Geometry.ClampThenSnapCanLeaveRange | js/components/Slider/index.js:126-128 | clamping before snapping can leave the range (10 in `[0, 10]` with step 4 becomes 12); snapping first does not |
| Slider.StepTarget | js/components/Slider/index.js:95 | the step target, the stored value or `min` moved by `increase` steps, is that point itself when it is in range, and otherwise the point of `[min, max]` nearest to it |
| Slider.HandleMove | js/components/Slider/index.js:91-101 | disabled or read-only is a no-op; otherwise at most one `onChange` with the step target, emitted iff the target `!==` the raw stored value, never an `afterChange`; the target is written unless controlled |
| Slider.Announce | js/components/Slider/index.js:130-132 | a committed pointer move notifies `onChange` before `afterChange`, both with the new value; each is present exactly when the host supplied that handler, and there is nothing else |
| Slider.MoveHandleToPosition | js/components/Slider/index.js:120-135 | disabled or read-only is a no-op; otherwise it commits and announces the candidate iff it differs from the value or `min`; controlled props suppress the write; every value written or announced lies in `[min, max]` |
| Slider.UnsetValueBaselines | js/components/Slider/index.js:91-135 | with no stored value a step move always notifies, even when its target is `min`, while a pointer move whose candidate is `min` is silent |
| Slider.ClickOnHandleIsNoOp | js/components/Slider/index.js:120-135 | clicking the rendered handle's centre changes nothing when the value is in range and on the grid |
| Slider.ClickPastMaxScenario | js/components/Slider/index.js:120-135 | on `[0, 100]` with a 200px track and a 20px handle, a click at 199px maps to 105, commits 100 and announces it once |
| Slider.StepScenario | js/components/Slider/index.js:91-101 | on `[0, 10]` with step 5, stepping up from 0 gives 5 and stepping down again gives 0 |
| Slider.NegativePointerRoundsUp | js/components/Slider/index.js:125-144 | on `[-10, 10]`, a click at the value -1.9 commits -1, not the nearer -2 |
| Slider.UnmeasuredClickOnPointRange | js/components/Slider/index.js:120-135 | while the measured track width is 0 (falsy) the factor stays 1, so a click on a `[5, 5]` slider is well defined, maps to 25, clamps to 5 and changes nothing |
| Session.Apply | js/components/Slider/index.js:63-135 | one input emits at most two notifications; measurements and host updates emit none, and measurements leave the value alone; when disabled, read-only or controlled, only a host update changes the value |
| Session.Run | js/components/Slider/index.js:63-135 | a run emits at most two notifications per input; without host updates a disabled or read-only slider emits nothing and keeps its value |
| Session.RunStaysInRange | js/components/Slider/index.js:91-154 | with fixed bounds every notification that a step or pointer move of a run emits is in range; an uncontrolled slider that starts in range stays in range |
| Session.InitStartsInRange | js/components/Slider/index.js:48-59 | the constructor's value is in range whenever the value it picks is: an unset or in-range host `value`, or, uncontrolled, an in-range truthy `defaultValue` |
| Session.RunFromInitStaysInRange | js/components/Slider/index.js:48-154 | an uncontrolled slider built with a falsy or in-range `defaultValue` keeps its value, and every notification, inside `[min, max]` for a whole run with fixed bounds |
| Session.RunControlledFollowsHost | js/components/Slider/index.js:63-162 | under controlled props, the value after a run is the last value the host supplied, or the initial one |

## Left out

- Rendering of the `Track`, `Handle` and `Gradient` children, class names, `tabIndex` and aria attributes (including `aria-readonly` reading the misspelt `readonly` prop): presentation only.
- DOM measurement: `clientWidth` and `getBoundingClientRect().left` are inputs to `SetTrack` and `SetHandleWidth`.
- `_onWrapperMouseDown` and `_onWrapperTouchStart`: they forward `pageX`, and a touch only when exactly one is active. They also repeat the disabled/read-only guard that `MoveHandleToPosition` already models. Each call is the `PointerAt` input.
- When the `Handle` component calls `handleMove`: that component is not part of this model. `StepBy` stands for each such call.
- Session.Run: the `Handle` component's own calls of the `afterChange` callback it receives (`this._afterChange`) have no input. `AfterChangeCall` models what such a call reports: its argument if defined, otherwise the stored value, which is `undefined` while the value is unset. `RunStaysInRange` therefore says nothing about those notifications.
- The PropTypes validators (`stepValidator`, `valueValidator`, `defaultValueValidator`): they live in utils files that are not part of this model. So a `defaultValue` outside `[min, max]` is possible, and `RunStaysInRange` assumes an in-range start.
- React's asynchronous, batched `setState`: each write takes effect at once. `this.factor` is recomputed from the current state and props instead of being cached by the last render.
- IEEE-754: values are exact reals with no rounding error. NaN and the infinities are not modelled.
- Geometry.Factor: requires `max != min` once both widths are truthy. There the source divides by zero and yields an infinity or NaN.
- Geometry.Render: requires `max != min` once both widths are truthy, for the same reason.
- Slider.MoveHandleToPosition: when enabled, requires a non-zero step, a known track edge and handle width, a non-zero factor, and `min != max` once both widths are truthy (`PointerMoveDefined`). The source computes NaN or an infinity without them, for example on a click before the handle is measured, when the handle is as wide as the track, or when a measured slider has `min == max`. Through `Session.Admissible`, `Session.Run` inherits the same requirement for every pointer input.
- ValueModel.SnapNearest: holds only for non-negative positions. For negative positions the source rounds up instead (`SnapNegativeIsCeiling`).

=== FILE: common.dfy ===
/** Helpers the slider takes from its shared utilities module, and the two
    JavaScript notions the component leans on: `undefined` and truthiness. */
module Common {

  /** A JavaScript slot that is either `undefined` or holds a value. */
  datatype Option<+T> = None | Some(value: T)

  /** `getValueOrAlt(v, alt)`. Its definition lives in utils/common, which is
      not part of this model; it is assumed to yield `v` when `v` is defined
      and `alt` otherwise. */
  function GetValueOrAlt<T>(v: Option<T>, alt: T): (r: T)
  {
    match v
    case Some(x) => x
    case None => alt
  }

  /** JavaScript truthiness of a number that may be `undefined`:
      `undefined` and `0` are falsy (NaN is not modelled). */
  predicate Truthy(v: Option<real>)
  {
    v.Some? && v.value != 0.0
  }

  function Abs(x: real): (a: real)
  {
    if x < 0.0 then -x else x
  }
}

=== FILE: geometry.dfy ===
/** The pixel arithmetic of the slider: the factor and handle offset that
    `render` computes, and the map from a pointer's page position back to a
    value used by `_moveHandleToPosition`. */
module Geometry {
  import opened Common
  import opened JsNumbers
  import opened ValueModel
  import opened SliderState

  /** The value `render` places the handle at: the stored value, or `min`
      while it is unset, clamped into range. (The pointer move compares
      against the same value or `min`, but unclamped.) */
  function DisplayValue(s: State, b: Bounds): (v: real)
    ensures b.min <= b.max ==> InBounds(v, b)
    ensures b.min <= b.max && s.value.None? ==> v == b.min
    ensures s.value.Some? && InBounds(s.value.value, b) ==> v == s.value.value
    ensures b.min <= b.max && s.value.Some? && s.value.value < b.min ==> v == b.min
    ensures b.min <= b.max && s.value.Some? && s.value.value > b.max ==> v == b.max
  {
    Clamp(b, GetValueOrAlt(s.value, b.min))
  }

  /** Both the track and the handle have a truthy width. */
  predicate Measured(s: State)
  {
    Truthy(s.trackWidth) && Truthy(s.handleWidth)
  }

  /** `this.factor`: pixels per unit of value. Until both widths are truthy
      it is 1; afterwards the whole range `[min, max]` spans the track
      width less the handle width. */
  function Factor(s: State, b: Bounds): (f: real)
    requires Measured(s) ==> b.min != b.max
    ensures !Measured(s) ==> f == 1.0
    ensures Measured(s) ==> f * (b.max - b.min) == s.trackWidth.value - s.handleWidth.value
  {
    if Measured(s) then
      (s.trackWidth.value - s.handleWidth.value) / (b.max - b.min)
    else
      1.0
  }

  /** What `render` hands to the handle: the factor, the pixel offset of
      the handle (`position`), and its `left` style as a percentage of the
      track width (`position * percentageFactor`). */
  datatype Placement = Placement(factor: real, offset: real, left: real)

  /** The offset arithmetic of `render`. The stored value is only read:
      an out-of-range value is clamped for display, not written back. */
  function Render(s: State, b: Bounds): (r: Placement)
    requires Measured(s) ==> b.min != b.max
    ensures r.factor == Factor(s, b)
    ensures !Measured(s) ==> r.offset == 0.0 && r.left == 0.0
    ensures Measured(s) ==> r.offset == (DisplayValue(s, b) - b.min) * r.factor
    ensures Measured(s) ==> r.left * s.trackWidth.value == 100.0 * r.offset
  {
    var f := Factor(s, b);
    if Measured(s) then
      var position := (DisplayValue(s, b) - b.min) * f;
      var percentageFactor := 100.0 / s.trackWidth.value;
      Placement(f, position, position * percentageFactor)
    else
      Placement(f, 0.0, 0.0)
  }

  /** The share of the range `[min, max]` that the displayed value covers. */
  function Fraction(s: State, b: Bounds): (fr: real)
    requires b.min != b.max
  {
    (DisplayValue(s, b) - b.min) / (b.max - b.min)
  }

  /** Once measured, the handle's `left` is the covered share of the range
      times the share of the track the handle can travel. */
  lemma RenderIsLinear(s: State, b: Bounds)
    requires b.min != b.max && Measured(s)
    ensures Render(s, b).left
         == Fraction(s, b) * (100.0 * (s.trackWidth.value - s.handleWidth.value) / s.trackWidth.value)
  {
    var tw, hw := s.trackWidth.value, s.handleWidth.value;
    var f := Factor(s, b);
    var d := DisplayValue(s, b) - b.min;
    QuotientOf(tw - hw, b.max - b.min, f);
    QuotientOf(d, b.max - b.min, Fraction(s, b));
    assert Render(s, b).left == d * f * (100.0 / tw);
  }

  /** With a proper range and a handle no wider than the track, the handle
      stays on the track: `left` lies between 0 and the track share the
      handle can travel, `100 * (trackWidth - handleWidth) / trackWidth`. */
  lemma RenderOffsetBounds(s: State, b: Bounds)
    requires b.min < b.max && Measured(s)
    requires 0.0 <= s.handleWidth.value <= s.trackWidth.value
    ensures 0.0 <= Render(s, b).left <= 100.0 * (s.trackWidth.value - s.handleWidth.value) / s.trackWidth.value
  {
    var tw, hw := s.trackWidth.value, s.handleWidth.value;
    RenderIsLinear(s, b);
    var fr := Fraction(s, b);
    var span := 100.0 * (tw - hw) / tw;
    assert 0.0 <= fr <= 1.0 by {
      QuotientOf(DisplayValue(s, b) - b.min, b.max - b.min, fr);
      UnitFraction(DisplayValue(s, b) - b.min, b.max - b.min, fr);
    }
    assert span >= 0.0 by {
      QuotientOf(100.0 * (tw - hw), tw, span);
    }
    ScaleWithinUnit(fr, span);
  }

  lemma UnitFraction(d: real, w: real, fr: real)
    requires w > 0.0 && 0.0 <= d <= w
    requires d == w * fr
    ensures 0.0 <= fr <= 1.0
  {
  }

  lemma ScaleWithinUnit(fr: real, span: real)
    requires 0.0 <= fr <= 1.0 && span >= 0.0
    ensures 0.0 <= fr * span <= span
  {
    assert fr * span <= 1.0 * span;
  }

  /** Preconditions for the pointer arithmetic to stay finite: the track's
      left edge and the handle width are known, the factor is a non-zero
      number, and, once both widths are truthy, `max != min` (before that
      the factor is 1). Otherwise the source computes NaN or an infinity. */
  predicate PointerReady(s: State, b: Bounds)
  {
    && (Measured(s) ==> b.min != b.max)
    && s.trackLeft.Some?
    && s.handleWidth.Some?
    && Factor(s, b) != 0.0
  }

  /** The unsnapped value under a pointer at page position `position`: the
      pointer's distance from the point half a handle into the track,
      converted to value units and shifted by `min`. */
  function PointerValue(s: State, b: Bounds, position: real): (v: real)
    requires PointerReady(s, b)
    ensures v == b.min + (position - s.trackLeft.value - s.handleWidth.value / 2.0) / Factor(s, b)
  {
    var f := Factor(s, b);
    var mouseDownPosition := position - s.trackLeft.value + b.min * f;
    var v := (mouseDownPosition - s.handleWidth.value / 2.0) / f;
    SplitQuotient(position - s.trackLeft.value - s.handleWidth.value / 2.0, b.min, f);
    v
  }

  lemma SplitQuotient(x: real, m: real, f: real)
    requires f != 0.0
    ensures (x + m * f) / f == m + x / f
  {
    QuotientOf(x, f, x / f);
    QuotientOf(x + m * f, f, m + x / f);
  }

  /** A pointer at the centre of the rendered handle maps back to the
      displayed value. */
  lemma PointerAtHandleCentre(s: State, b: Bounds)
    requires PointerReady(s, b) && Measured(s)
    ensures PointerValue(s, b, s.trackLeft.value + Render(s, b).offset + s.handleWidth.value / 2.0)
         == DisplayValue(s, b)
  {
    var f := Factor(s, b);
    var d := DisplayValue(s, b) - b.min;
    assert Render(s, b).offset == d * f;
    QuotientOf(d * f, f, d);
  }

  /** `newValue` of `_moveHandleToPosition`: the pointer value snapped to
      the step grid, then clamped. The result is in range, and it is on the
      grid unless it is one of the bounds. */
  function PointerCandidate(s: State, b: Bounds, position: real): (v: real)
    requires PointerReady(s, b) && b.step != 0.0
    ensures b.min <= b.max ==> InBounds(v, b)
    ensures IsMultipleOf(v, b.step) || v == b.min || v == b.max
  {
    Clamp(b, Snap(b.step, PointerValue(s, b, position)))
  }

  /** Why the snap comes first: clamping first and snapping afterwards can
      leave the range. With `[0, 10]` and step 4, the value 10 snaps to 12,
      whereas snapping first and clamping gives 10. */
  lemma ClampThenSnapCanLeaveRange()
    ensures Snap(4.0, Clamp(Bounds(0.0, 10.0, 4.0), 10.0)) == 12.0
    ensures Clamp(Bounds(0.0, 10.0, 4.0), Snap(4.0, 10.0)) == 10.0
  {
    ProductIsMultiple(4.0, 2);
    assert IsMultipleOf(10.0 - 2.0, 4.0);
    JsRemUnique(10.0, 4.0, 2.0);
  }
}

=== FILE: js_numbers.dfy ===
/** JavaScript's remainder operator on numbers, over exact reals.
    JavaScript's `%` truncates the quotient toward zero, so the remainder takes
    the sign of the dividend; Dafny's `%` is Euclidean and is not used here. */
module JsNumbers {
  import opened Common

  /** `Math.trunc`: the integer part of `x`, rounding toward zero. */
  function Trunc(x: real): (t: int)
    ensures x >= 0.0 ==> t as real <= x < t as real + 1.0
    ensures x <= 0.0 ==> t as real - 1.0 < x <= t as real
  {
    if x >= 0.0 then x.Floor else -((-x).Floor)
  }

  /** `x` is an integer multiple of `s`. */
  predicate IsMultipleOf(x: real, s: real)
    requires s != 0.0
  {
    (x / s).Floor as real == x / s
  }

  lemma ProductIsMultiple(s: real, k: int)
    requires s != 0.0
    ensures IsMultipleOf(s * k as real, s)
  {
    QuotientOf(s * k as real, s, k as real);
    IntFloor(k);
  }

  /** Division and multiplication by a non-zero `s` undo each other. */
  lemma QuotientOf(x: real, s: real, a: real)
    requires s != 0.0
    requires x == s * a || x / s == a
    ensures x / s == a && x == s * a
  {
  }

  lemma IntFloor(n: int)
    ensures (n as real).Floor == n
  {
  }

  /** `x % s` in JavaScript. The result differs from `x` by a whole multiple
      of `s`, is smaller than `s` in magnitude and carries the sign of `x`. */
  function JsRem(x: real, s: real): (r: real)
    requires s != 0.0
    ensures IsMultipleOf(x - r, s)
    ensures Abs(r) < Abs(s)
    ensures x >= 0.0 ==> r >= 0.0
    ensures x <= 0.0 ==> r <= 0.0
  {
    var t := Trunc(x / s);
    ProductIsMultiple(s, t);
    RemBounds(x, s, t);
    x - s * t as real
  }

  lemma RemBounds(x: real, s: real, t: int)
    requires s != 0.0
    requires t == Trunc(x / s)
    ensures Abs(x - s * t as real) < Abs(s)
    ensures x >= 0.0 ==> x - s * t as real >= 0.0
    ensures x <= 0.0 ==> x - s * t as real <= 0.0
  {
    var q := x / s;
    var d := q - t as real;
    assert x - s * t as real == s * d;
    assert -1.0 < d < 1.0;
    assert x >= 0.0 <==> (if s > 0.0 then q >= 0.0 else q <= 0.0) by {
      SignOfQuotient(x, s);
    }
    assert x <= 0.0 <==> (if s > 0.0 then q <= 0.0 else q >= 0.0) by {
      SignOfQuotient(x, s);
    }
    ScaledFraction(s, d);
  }

  lemma SignOfQuotient(x: real, s: real)
    requires s != 0.0
    ensures s > 0.0 ==> (x >= 0.0 <==> x / s >= 0.0) && (x <= 0.0 <==> x / s <= 0.0)
    ensures s < 0.0 ==> (x >= 0.0 <==> x / s <= 0.0) && (x <= 0.0 <==> x / s >= 0.0)
  {
    assert x == s * (x / s);
  }

  /** Scaling a fraction `d` in (-1, 1) by `s` keeps it below `|s|` and
      keeps or flips its sign with that of `s`. */
  lemma ScaledFraction(s: real, d: real)
    requires s != 0.0
    requires -1.0 < d < 1.0
    ensures Abs(s * d) < Abs(s)
    ensures d >= 0.0 ==> (if s > 0.0 then s * d >= 0.0 else s * d <= 0.0)
    ensures d <= 0.0 ==> (if s > 0.0 then s * d <= 0.0 else s * d >= 0.0)
  {
    if s > 0.0 {
      assert s * d < s * 1.0;
      assert s * (-1.0) < s * d;
    } else {
      assert s * d < s * (-1.0);
      assert s * 1.0 < s * d;
    }
  }

  /** The three properties in JsRem's contract determine the remainder:
      any `r` that differs from `x` by a whole multiple of `s`, is smaller
      than `s` in magnitude and has the sign of `x` is `x % s`. */
  lemma JsRemUnique(x: real, s: real, r: real)
    requires s != 0.0
    requires IsMultipleOf(x - r, s)
    requires Abs(r) < Abs(s)
    requires x >= 0.0 ==> r >= 0.0
    requires x <= 0.0 ==> r <= 0.0
    ensures r == JsRem(x, s)
  {
    RemaindersAgree(x, s, r, JsRem(x, s));
  }

  /** Two remainders of `x` by `s` with the sign of `x` coincide. */
  lemma RemaindersAgree(x: real, s: real, r: real, r0: real)
    requires s != 0.0
    requires IsMultipleOf(x - r, s) && IsMultipleOf(x - r0, s)
    requires Abs(r) < Abs(s) && Abs(r0) < Abs(s)
    requires x >= 0.0 ==> r >= 0.0 && r0 >= 0.0
    requires x <= 0.0 ==> r <= 0.0 && r0 <= 0.0
    ensures r == r0
  {
    var a := MultipleWitness(x - r, s);
    var b := MultipleWitness(x - r0, s);
    var m := b - a;
    assert r - r0 == s * m as real by {
      assert r - r0 == s * b as real - s * a as real;
      assert s * b as real - s * a as real == s * (b as real - a as real);
    }
    SameSignGap(x, s, r, r0);
    SmallMultipleIsZero(s, m, r - r0);
  }

  lemma SmallMultipleIsZero(s: real, m: int, y: real)
    requires s != 0.0
    requires y == s * m as real
    requires Abs(y) < Abs(s)
    ensures y == 0.0
  {
    if m != 0 {
      NonZeroMultiple(s, m);
    }
  }

  lemma SameSignGap(x: real, s: real, r: real, r0: real)
    requires Abs(r) < Abs(s) && Abs(r0) < Abs(s)
    requires x >= 0.0 ==> r >= 0.0 && r0 >= 0.0
    requires x <= 0.0 ==> r <= 0.0 && r0 <= 0.0
    ensures Abs(r - r0) < Abs(s)
  {
  }

  lemma MultipleWitness(y: real, s: real) returns (k: int)
    requires s != 0.0
    requires IsMultipleOf(y, s)
    ensures y == s * k as real
  {
    k := (y / s).Floor;
    QuotientOf(y, s, y / s);
  }

  lemma NextMultiple(y: real, s: real)
    requires s != 0.0
    requires IsMultipleOf(y, s)
    ensures IsMultipleOf(y + s, s)
  {
    var k := (y / s).Floor;
    QuotientOf(y, s, y / s);
    QuotientOf(y + s, s, (k + 1) as real);
    IntFloor(k + 1);
  }

  /** Multiplying by a positive `s` preserves order. */
  lemma ScaleOrder(s: real, a: real, b: real)
    requires s > 0.0 && a <= b
    ensures s * a <= s * b
  {
    assert s * b - s * a == s * (b - a);
  }

  lemma ScaleMonotone(s: real, a: real, b: real)
    requires s > 0.0
    ensures a < b <==> s * a < s * b
  {
    if a < b {
      assert s * b - s * a == s * (b - a);
    } else {
      assert s * a - s * b == s * (a - b);
    }
  }

  /** A multiple `s * k` whose index is at most `g / s` lies at or below `g`. */
  lemma BelowGrid(s: real, g: real, k: int)
    requires s > 0.0 && k as real <= g / s
    ensures s * k as real <= g
  {
    QuotientOf(g, s, g / s);
    ScaleOrder(s, k as real, g / s);
  }

  /** A multiple `s * k` whose index is at least `g / s` lies at or above `g`. */
  lemma AtOrAboveGrid(s: real, g: real, k: int)
    requires s > 0.0 && k as real >= g / s
    ensures s * k as real >= g
  {
    QuotientOf(g, s, g / s);
    ScaleOrder(s, g / s, k as real);
  }

  /** A multiple `s * k` whose index is at least `g / s + 1` lies a whole
      step or more above `g`. */
  lemma AboveGrid(s: real, g: real, k: int)
    requires s > 0.0 && k as real >= g / s + 1.0
    ensures s * k as real >= g + s
  {
    QuotientOf(g, s, g / s);
    ScaleOrder(s, g / s + 1.0, k as real);
  }

  /** A multiple `s * k` above `g - s` has an index above `g / s - 1`. */
  lemma IndexAbove(s: real, g: real, k: int)
    requires s > 0.0 && s * k as real > g - s
    ensures k as real > g / s - 1.0
  {
    QuotientOf(g, s, g / s);
    ScaleMonotone(s, g / s - 1.0, k as real);
    assert s * (g / s - 1.0) == g - s;
  }

  lemma NonZeroMultiple(s: real, m: int)
    requires s != 0.0
    requires m != 0
    ensures Abs(s * m as real) >= Abs(s)
  {
    if m > 0 {
      if s > 0.0 { assert s * m as real >= s * 1.0; } else { assert s * m as real <= s * 1.0; }
    } else {
      if s > 0.0 { assert s * m as real <= s * -1.0; } else { assert s * m as real >= s * -1.0; }
    }
  }

  /** For a negative dividend the JavaScript remainder is negative:
      `-7 % 3` is -1 in JavaScript, where a Euclidean remainder would be 2. */
  lemma NegativeDividendRemainder()
    ensures JsRem(-7.0, 3.0) == -1.0
  {
    JsRemUnique(-7.0, 3.0, -1.0);
  }
}

=== FILE: session.dfy ===
/** The slider as a state machine: the inputs the host and the browser feed
    it, one step per input, and a run over a sequence of inputs. Props travel
    with the state because a host update replaces them. */
module Session {
  import opened Common
  import opened ValueModel
  import opened SliderState
  import opened Geometry
  import opened Slider

  datatype Input =
    | TrackMeasured(clientWidth: real, left: real)  // the track's ref callback
    | HandleMeasured(clientWidth: real)             // the handle's ref callback
    | StepBy(increase: real)                        // `handleMove` from the handle
    | PointerAt(position: real)                     // a click or a single touch
    | HostProps(next: Props)                        // new props from the host

  datatype Trace = Trace(state: State, props: Props, events: seq<Event>)

  predicate InputDefined(s: State, p: Props, i: Input)
  {
    i.PointerAt? ==> PointerMoveDefined(s, p)
  }

  /** One input. Measurements and host updates never notify; the two moves
      emit at most two notifications between them. */
  function Apply(s: State, p: Props, i: Input): (t: Trace)
    requires InputDefined(s, p, i)
    ensures |t.events| <= 2
    ensures i.HostProps? ==> t.props == i.next && t.events == []
    ensures !i.HostProps? ==> t.props == p
    ensures !i.HostProps? && (!Enabled(p) || Controlled(p)) ==> t.state.value == s.value
    ensures !Enabled(p) ==> t.events == []
    ensures i.TrackMeasured? || i.HandleMeasured? ==> t.events == [] && t.state.value == s.value
  {
    match i
    case TrackMeasured(w, l) => Trace(SetTrack(s, w, l), p, [])
    case HandleMeasured(w) => Trace(SetHandleWidth(s, w), p, [])
    case StepBy(n) =>
      var o := HandleMove(s, p, n);
      Trace(o.state, p, o.events)
    case PointerAt(x) =>
      var o := MoveHandleToPosition(s, p, x);
      Trace(o.state, p, o.events)
    case HostProps(next) => Trace(ReceiveProps(s, next), next, [])
  }

  /** Every pointer move in the run finds its geometry ready. */
  predicate Admissible(s: State, p: Props, inputs: seq<Input>)
    decreases |inputs|
  {
    |inputs| == 0 ||
    (InputDefined(s, p, inputs[0]) &&
     var t := Apply(s, p, inputs[0]);
     Admissible(t.state, t.props, inputs[1..]))
  }

  predicate NoHostUpdates(inputs: seq<Input>)
  {
    forall k :: 0 <= k < |inputs| ==> !inputs[k].HostProps?
  }

  /** The inputs one after another, notifications in order. Without host
      updates the props stay as they are, and while they say disabled or
      read-only nothing is announced and the value does not move. */
  function Run(s: State, p: Props, inputs: seq<Input>): (t: Trace)
    requires Admissible(s, p, inputs)
    ensures |t.events| <= 2 * |inputs|
    ensures NoHostUpdates(inputs) ==> t.props == p
    ensures NoHostUpdates(inputs) && !Enabled(p) ==> t.events == [] && t.state.value == s.value
    decreases |inputs|
  {
    if |inputs| == 0 then
      Trace(s, p, [])
    else
      var t := Apply(s, p, inputs[0]);
      assert NoHostUpdates(inputs) ==> NoHostUpdates(inputs[1..]) by {
        if NoHostUpdates(inputs) {
          forall k | 0 <= k < |inputs[1..]| ensures !inputs[1..][k].HostProps? {
            assert inputs[1..][k] == inputs[k + 1];
          }
        }
      }
      var rest := Run(t.state, t.props, inputs[1..]);
      Trace(rest.state, rest.props, t.events + rest.events)
  }

  /** The stored value is unset or inside the range. */
  predicate ValueInRange(s: State, b: Bounds)
  {
    s.value.None? || InBounds(s.value.value, b)
  }

  /** The constructor starts in range when the initial value it picks is:
      a host `value` that is unset or in range, or, uncontrolled, a truthy
      `defaultValue` in range (a falsy one leaves the value unset). */
  lemma InitStartsInRange(p: Props)
    requires Controlled(p) && p.value.given.Some? ==> InBounds(p.value.given.value, p.bounds)
    requires !Controlled(p) && Truthy(p.defaultValue) ==> InBounds(p.defaultValue.value, p.bounds)
    ensures ValueInRange(Init(p), p.bounds)
  {
  }

  /** Every host update keeps the bounds `b` and, when `uncontrolled`
      holds, leaves out the `value` prop. */
  predicate HostKeeps(inputs: seq<Input>, b: Bounds, uncontrolled: bool)
  {
    forall k :: 0 <= k < |inputs| && inputs[k].HostProps? ==>
      inputs[k].next.bounds == b && (uncontrolled ==> !Controlled(inputs[k].next))
  }

  lemma HostKeepsTail(inputs: seq<Input>, b: Bounds, uncontrolled: bool)
    requires |inputs| > 0 && HostKeeps(inputs, b, uncontrolled)
    ensures HostKeeps(inputs[1..], b, uncontrolled)
  {
    forall k | 0 <= k < |inputs[1..]| && inputs[1..][k].HostProps?
      ensures inputs[1..][k].next.bounds == b && (uncontrolled ==> !Controlled(inputs[1..][k].next))
    {
      assert inputs[1..][k] == inputs[k + 1];
    }
  }

  /** With fixed bounds, every notification of a run reports a value in
      `[min, max]`; an uncontrolled slider that starts in range stays in
      range however it is stepped, dragged or measured. */
  lemma {:induction false} RunStaysInRange(s: State, p: Props, inputs: seq<Input>, uncontrolled: bool)
    requires Admissible(s, p, inputs)
    requires p.bounds.min <= p.bounds.max
    requires HostKeeps(inputs, p.bounds, uncontrolled)
    requires uncontrolled ==> !Controlled(p) && ValueInRange(s, p.bounds)
    ensures forall e :: e in Run(s, p, inputs).events ==> EventInBounds(e, p.bounds)
    ensures uncontrolled ==> ValueInRange(Run(s, p, inputs).state, p.bounds)
    decreases |inputs|
  {
    if |inputs| > 0 {
      var i := inputs[0];
      var t := Apply(s, p, i);
      assert t.props.bounds == p.bounds by {
        if i.HostProps? { assert inputs[0].HostProps?; }
      }
      assert uncontrolled ==> !Controlled(t.props) by {
        if i.HostProps? { assert inputs[0].HostProps?; }
      }
      assert forall e :: e in t.events ==> EventInBounds(e, p.bounds) by {
        match i
        case StepBy(n) =>
          assert forall e :: e in t.events ==> e == OnChange(StepTarget(s, p.bounds, n));
        case PointerAt(x) =>
        case _ =>
      }
      assert uncontrolled ==> ValueInRange(t.state, p.bounds) by {
        if uncontrolled {
          match i
          case StepBy(n) =>
            if Enabled(p) {
              assert t.state.value == Some(StepTarget(s, p.bounds, n));
            }
          case _ =>
        }
      }
      HostKeepsTail(inputs, p.bounds, uncontrolled);
      RunStaysInRange(t.state, t.props, inputs[1..], uncontrolled);
    }
  }

  /** An uncontrolled slider built by the constructor with an in-range or
      falsy `defaultValue` keeps its value in range for the whole run. */
  lemma RunFromInitStaysInRange(p: Props, inputs: seq<Input>)
    requires !Controlled(p) && p.bounds.min <= p.bounds.max
    requires Truthy(p.defaultValue) ==> InBounds(p.defaultValue.value, p.bounds)
    requires Admissible(Init(p), p, inputs)
    requires HostKeeps(inputs, p.bounds, true)
    ensures ValueInRange(Run(Init(p), p, inputs).state, p.bounds)
    ensures forall e :: e in Run(Init(p), p, inputs).events ==> EventInBounds(e, p.bounds)
  {
    InitStartsInRange(p);
    RunStaysInRange(Init(p), p, inputs, true);
  }

  /** The last value the host passed in the run, or `v` if it passed none. */
  function LastHostValue(inputs: seq<Input>, v: Option<real>): (last: Option<real>)
    decreases |inputs|
  {
    if |inputs| == 0 then v
    else
      var v' := if inputs[0].HostProps? && Controlled(inputs[0].next) then inputs[0].next.value.given else v;
      LastHostValue(inputs[1..], v')
  }

  /** A controlled slider, kept controlled by every host update, shows the
      host's value and nothing else: steps and pointer moves may announce
      candidates but never write them. */
  lemma {:induction false} RunControlledFollowsHost(s: State, p: Props, inputs: seq<Input>)
    requires Admissible(s, p, inputs)
    requires Controlled(p)
    requires forall k :: 0 <= k < |inputs| && inputs[k].HostProps? ==> Controlled(inputs[k].next)
    ensures Run(s, p, inputs).state.value == LastHostValue(inputs, s.value)
    decreases |inputs|
  {
    if |inputs| > 0 {
      var t := Apply(s, p, inputs[0]);
      assert Controlled(t.props);
      forall k | 0 <= k < |inputs[1..]| && inputs[1..][k].HostProps?
        ensures Controlled(inputs[1..][k].next)
      {
        assert inputs[1..][k] == inputs[k + 1];
      }
      RunControlledFollowsHost(t.state, t.props, inputs[1..]);
    }
  }
}

=== FILE: slider.dfy ===
/** The two interaction operations of the slider: the relative step move
    `_handleMove` and the absolute pointer move `_moveHandleToPosition`.
    Each maps the current state, the current props and its input to the
    next state and the notifications emitted on the way. */
module Slider {
  import opened Common
  import opened JsNumbers
  import opened ValueModel
  import opened SliderState
  import opened Geometry

  datatype Outcome = Outcome(state: State, events: seq<Event>)

  /** A notification carries a value inside the range. */
  predicate EventInBounds(e: Event, b: Bounds)
  {
    match e
    case OnChange(v) => InBounds(v, b)
    case AfterChange(c) => c.Some? && InBounds(c.value, b)
  }

  /** `newValue` of `_handleMove`: the stored value (or `min` while unset)
      moved by `increase` steps, clamped. It is not snapped to the grid. */
  function StepTarget(s: State, b: Bounds, increase: real): (v: real)
    ensures b.min <= b.max ==> InBounds(v, b)
    ensures InBounds(GetValueOrAlt(s.value, b.min) + increase * b.step, b)
            ==> v == GetValueOrAlt(s.value, b.min) + increase * b.step
    ensures b.min <= b.max ==> forall w :: InBounds(w, b) ==>
              Abs(v - (GetValueOrAlt(s.value, b.min) + increase * b.step))
              <= Abs(w - (GetValueOrAlt(s.value, b.min) + increase * b.step))
  {
    Clamp(b, GetValueOrAlt(s.value, b.min) + increase * b.step)
  }

  /** `_handleMove`. When enabled and the target differs (`!==`) from the
      raw stored value, an unset value always counting as different, the
      target is written (unless controlled) and `onChange` fires; there is
      never an `afterChange`. */
  function HandleMove(s: State, p: Props, increase: real): (o: Outcome)
    ensures !Enabled(p) ==> o == Outcome(s, [])
    ensures SameGeometry(o.state, s)
    ensures Controlled(p) ==> o.state == s
    ensures Enabled(p) && !Controlled(p) ==> o.state.value == Some(StepTarget(s, p.bounds, increase))
    ensures |o.events| <= 1
    ensures forall e :: e in o.events ==> e == OnChange(StepTarget(s, p.bounds, increase))
    ensures o.events != [] <==> Enabled(p) && p.hasOnChange && Some(StepTarget(s, p.bounds, increase)) != s.value
  {
    if Enabled(p) then
      var newValue := StepTarget(s, p.bounds, increase);
      if Some(newValue) != s.value then
        Outcome(UpdateState(s, p, newValue), OnChangeCall(p, newValue))
      else
        Outcome(s, [])
    else
      Outcome(s, [])
  }

  /** The notifications of a committed pointer move: `onChange` first, then
      `afterChange`, each when the host supplied it, both with `v`. */
  function Announce(s: State, p: Props, v: real): (es: seq<Event>)
    ensures |es| == (if p.hasOnChange then 1 else 0) + (if p.hasAfterChange then 1 else 0)
    ensures OnChange(v) in es <==> p.hasOnChange
    ensures AfterChange(Some(v)) in es <==> p.hasAfterChange
    ensures p.hasOnChange ==> es[0] == OnChange(v)
    ensures p.hasAfterChange ==> es[|es| - 1] == AfterChange(Some(v))
    ensures forall e :: e in es ==> e == OnChange(v) || e == AfterChange(Some(v))
  {
    OnChangeCall(p, v) + AfterChangeCall(UpdateState(s, p, v), p, Some(v))
  }

  /** What a pointer move needs to compute without NaN: when enabled, a
      non-zero step and the geometry of `PointerReady`. */
  predicate PointerMoveDefined(s: State, p: Props)
  {
    Enabled(p) ==> PointerReady(s, p.bounds) && p.bounds.step != 0.0
  }

  /** `_moveHandleToPosition`. When enabled, the candidate under the pointer
      is compared with the stored value or, while unset, `min`; if it
      differs it is written (unless controlled) and announced. Every value
      written or announced lies in `[min, max]`. */
  function MoveHandleToPosition(s: State, p: Props, position: real): (o: Outcome)
    requires PointerMoveDefined(s, p)
    ensures !Enabled(p) ==> o == Outcome(s, [])
    ensures SameGeometry(o.state, s)
    ensures Controlled(p) ==> o.state == s
    ensures Enabled(p) && PointerCandidate(s, p.bounds, position) == GetValueOrAlt(s.value, p.bounds.min)
            ==> o == Outcome(s, [])
    ensures Enabled(p) && PointerCandidate(s, p.bounds, position) != GetValueOrAlt(s.value, p.bounds.min)
            ==> o.events == Announce(s, p, PointerCandidate(s, p.bounds, position))
                && (!Controlled(p) ==> o.state.value == Some(PointerCandidate(s, p.bounds, position)))
    ensures p.bounds.min <= p.bounds.max ==> forall e :: e in o.events ==> EventInBounds(e, p.bounds)
    ensures p.bounds.min <= p.bounds.max && o.state.value != s.value
            ==> o.state.value.Some? && InBounds(o.state.value.value, p.bounds)
  {
    if Enabled(p) then
      var newValue := PointerCandidate(s, p.bounds, position);
      if newValue != GetValueOrAlt(s.value, p.bounds.min) then
        Outcome(UpdateState(s, p, newValue), Announce(s, p, newValue))
      else
        Outcome(s, [])
    else
      Outcome(s, [])
  }

  /** The two operations measure change against different baselines. While
      the value is unset, `_handleMove` compares with `undefined` and so
      always notifies, even when its target is `min`; `_moveHandleToPosition`
      compares with `min` and stays silent when the candidate is `min`. */
  lemma UnsetValueBaselines(s: State, p: Props, increase: real, position: real)
    requires s.value.None? && Enabled(p) && p.hasOnChange
    requires PointerMoveDefined(s, p)
    requires PointerCandidate(s, p.bounds, position) == p.bounds.min
    ensures HandleMove(s, p, increase).events == [OnChange(StepTarget(s, p.bounds, increase))]
    ensures MoveHandleToPosition(s, p, position) == Outcome(s, [])
  {
  }

  /** Clicking the centre of the rendered handle changes nothing when the
      stored value is in range and on the step grid. */
  lemma ClickOnHandleIsNoOp(s: State, p: Props)
    requires PointerMoveDefined(s, p) && Enabled(p) && Measured(s)
    requires p.bounds.step > 0.0
    requires s.value.Some? && InBounds(s.value.value, p.bounds)
    requires IsMultipleOf(s.value.value, p.bounds.step)
    ensures MoveHandleToPosition(s, p, s.trackLeft.value + Render(s, p.bounds).offset + s.handleWidth.value / 2.0)
         == Outcome(s, [])
  {
    var v := s.value.value;
    PointerAtHandleCentre(s, p.bounds);
    SnapFixesGrid(p.bounds.step, v);
  }

  /** An uncontrolled slider on `[0, 100]` with step 1, a 200px track at
      the page origin and a 20px handle: a click at 199px maps to 105,
      which is clamped to 100 and announced once. */
  lemma ClickPastMaxScenario()
    ensures var p := Props(DefaultBounds, Absent, None, false, false, true, true);
            var s := State(None, Some(200.0), Some(20.0), Some(0.0));
            PointerValue(s, p.bounds, 199.0) == 105.0
            && MoveHandleToPosition(s, p, 199.0)
               == Outcome(s.(value := Some(100.0)), [OnChange(100.0), AfterChange(Some(100.0))])
  {
    var p := Props(DefaultBounds, Absent, None, false, false, true, true);
    var s := State(None, Some(200.0), Some(20.0), Some(0.0));
    assert Factor(s, p.bounds) == 1.8;
    ProductIsMultiple(1.0, 105);
    SnapFixesGrid(1.0, 105.0);
  }

  /** Stepping on `[0, 10]` with step 5: up one step from 0 gives 5, down
      one step from 5 gives 0 again. */
  lemma StepScenario()
    ensures var p := Props(Bounds(0.0, 10.0, 5.0), Absent, None, false, false, true, false);
            var s := State(Some(0.0), None, None, None);
            var up := HandleMove(s, p, 1.0);
            up == Outcome(s.(value := Some(5.0)), [OnChange(5.0)])
            && HandleMove(up.state, p, -1.0) == Outcome(s, [OnChange(0.0)])
  {
  }

  /** With a negative `min` the truncating remainder shows: on `[-10, 10]`
      with step 1 and a factor of 1, a click whose value is -1.9 commits
      -1, not the nearer -2. */
  lemma NegativePointerRoundsUp()
    ensures var p := Props(Bounds(-10.0, 10.0, 1.0), Absent, None, false, false, true, false);
            var s := State(None, Some(40.0), Some(20.0), Some(0.0));
            PointerValue(s, p.bounds, 18.1) == -1.9
            && MoveHandleToPosition(s, p, 18.1) == Outcome(s.(value := Some(-1.0)), [OnChange(-1.0)])
  {
    var s := State(None, Some(40.0), Some(20.0), Some(0.0));
    assert Factor(s, Bounds(-10.0, 10.0, 1.0)) == 1.0;
    SnapNegativeNotNearest();
  }

  /** While the measured track width is 0 (falsy) the factor stays 1, so
      even a range with `min == max` takes a click: on `[5, 5]` every
      candidate clamps to 5, which equals the baseline `min`, and nothing
      happens. */
  lemma UnmeasuredClickOnPointRange()
    ensures var p := Props(Bounds(5.0, 5.0, 1.0), Absent, None, false, false, true, true);
            var s := State(None, Some(0.0), Some(20.0), Some(0.0));
            PointerMoveDefined(s, p)
            && PointerValue(s, p.bounds, 30.0) == 25.0
            && MoveHandleToPosition(s, p, 30.0) == Outcome(s, [])
  {
  }
}

=== FILE: slider_state.dfy ===
/** The props the host passes to the slider, the component state, the
    notifications it emits, and the state writes that involve no pointer
    arithmetic: the constructor, `componentWillReceiveProps`, the two
    measurement callbacks and `_updateState`. */
module SliderState {
  import opened Common
  import opened ValueModel

  /** The `value` prop: absent from the props object, or present with a
      number or with `undefined` (`has(props, 'value')` holds in both). */
  datatype ValueProp = Absent | Present(given: Option<real>)

  /** The props the value engine reads. `hasOnChange` and `hasAfterChange`
      say whether the `onChange` and `afterChange` callbacks are supplied. */
  datatype Props = Props(
    bounds: Bounds,
    value: ValueProp,
    defaultValue: Option<real>,
    disabled: bool,
    readOnly: bool,
    hasOnChange: bool,
    hasAfterChange: bool)

  /** The component state (`value`, `trackWidth`, `handleWidth`) together
      with the instance field `trackLeft`. */
  datatype State = State(
    value: Option<real>,
    trackWidth: Option<real>,
    handleWidth: Option<real>,
    trackLeft: Option<real>)

  /** A call of the host's `onChange({value})` or `afterChange({value})`. */
  datatype Event = OnChange(value: real) | AfterChange(committed: Option<real>)

  /** `has(props, 'value')`: the host owns the value. It is read from the
      props current at each call, not fixed at construction. */
  predicate Controlled(p: Props)
  {
    p.value.Present?
  }

  /** Neither `disabled` nor `readOnly` is set. */
  predicate Enabled(p: Props)
  {
    !p.disabled && !p.readOnly
  }

  /** Everything but the value is equal. */
  predicate SameGeometry(s: State, t: State)
  {
    s.trackWidth == t.trackWidth && s.handleWidth == t.handleWidth && s.trackLeft == t.trackLeft
  }

  /** The constructor: the `value` prop when present (even `undefined`),
      else `defaultValue` when it is truthy, else unset. Nothing is measured
      yet. */
  function Init(p: Props): (s: State)
    ensures s.trackWidth.None? && s.handleWidth.None? && s.trackLeft.None?
    ensures Controlled(p) ==> s.value == p.value.given
    ensures !Controlled(p) ==> (s.value.Some? <==> Truthy(p.defaultValue))
    ensures !Controlled(p) && s.value.Some? ==> s.value == p.defaultValue
  {
    var value :=
      if p.value.Present? then p.value.given
      else if Truthy(p.defaultValue) then p.defaultValue
      else None;
    State(value, None, None, None)
  }

  /** A `defaultValue` of 0 is falsy and so ignored: the slider starts
      with no value. */
  lemma InitIgnoresZeroDefault(p: Props)
    requires !Controlled(p) && p.defaultValue == Some(0.0)
    ensures Init(p).value == None
  {
  }

  /** `componentWillReceiveProps`: new props carrying `value` overwrite the
      stored value with it, `undefined` included; otherwise nothing
      changes. */
  function ReceiveProps(s: State, next: Props): (t: State)
    ensures SameGeometry(t, s)
    ensures Controlled(next) ==> t.value == next.value.given
    ensures !Controlled(next) ==> t == s
  {
    match next.value
    case Present(v) => s.(value := v)
    case Absent => s
  }

  /** Whatever was stored before, internal writes included, the host's
      value wins, and passing the same props again changes nothing. */
  lemma HostValueWins(s: State, next: Props)
    requires Controlled(next)
    ensures ReceiveProps(ReceiveProps(s, next), next) == ReceiveProps(s, next)
    ensures forall t: State :: SameGeometry(t, s) ==> ReceiveProps(t, next) == ReceiveProps(s, next)
  {
  }

  /** `_setFactor`: records the track's width and left edge, overwriting any
      earlier measurement. */
  function SetTrack(s: State, clientWidth: real, left: real): (t: State)
    ensures t.trackWidth == Some(clientWidth) && t.trackLeft == Some(left)
    ensures t.value == s.value && t.handleWidth == s.handleWidth
  {
    s.(trackWidth := Some(clientWidth), trackLeft := Some(left))
  }

  /** The last track measurement wins. */
  lemma LastTrackMeasurementWins(s: State, w1: real, l1: real, w2: real, l2: real)
    ensures SetTrack(SetTrack(s, w1, l1), w2, l2) == SetTrack(s, w2, l2)
  {
  }

  /** `_setHandleWidth`: records the handle's width only while the stored
      width is falsy (unset or 0). */
  function SetHandleWidth(s: State, clientWidth: real): (t: State)
    ensures Truthy(s.handleWidth) ==> t == s
    ensures !Truthy(s.handleWidth) ==> t.handleWidth == Some(clientWidth)
    ensures t.value == s.value && t.trackWidth == s.trackWidth && t.trackLeft == s.trackLeft
  {
    if !Truthy(s.handleWidth) then s.(handleWidth := Some(clientWidth)) else s
  }

  /** The first non-zero handle measurement wins: every later one is
      ignored. A zero measurement does not lock the width. */
  lemma FirstHandleMeasurementWins(s: State, w1: real, w2: real)
    requires !Truthy(s.handleWidth)
    ensures w1 != 0.0 ==> SetHandleWidth(SetHandleWidth(s, w1), w2).handleWidth == Some(w1)
    ensures w1 == 0.0 ==> SetHandleWidth(SetHandleWidth(s, w1), w2).handleWidth == Some(w2)
  {
  }

  /** `_updateState`: an internal write of the value, suppressed while the
      props carry `value`. */
  function UpdateState(s: State, p: Props, v: real): (t: State)
    ensures SameGeometry(t, s)
    ensures Controlled(p) ==> t == s
    ensures !Controlled(p) ==> t.value == Some(v)
  {
    if !Controlled(p) then s.(value := Some(v)) else s
  }

  /** `_onChange`: calls `onChange({value})` when the host supplied it. */
  function OnChangeCall(p: Props, v: real): (es: seq<Event>)
    ensures |es| <= 1
    ensures es != [] <==> p.hasOnChange
    ensures forall e :: e in es ==> e == OnChange(v)
  {
    if p.hasOnChange then [OnChange(v)] else []
  }

  /** `_afterChange`: calls `afterChange({value})` when the host supplied
      it, reporting the argument when it is defined and the stored value
      otherwise. */
  function AfterChangeCall(s: State, p: Props, v: Option<real>): (es: seq<Event>)
    ensures |es| <= 1
    ensures es != [] <==> p.hasAfterChange
    ensures forall e :: e in es ==> e.AfterChange? && (v.Some? ==> e.committed == v) && (v.None? ==> e.committed == s.value)
  {
    var reported := if v.Some? then v else s.value;
    if p.hasAfterChange then [AfterChange(reported)] else []
  }
}

=== FILE: value_model.dfy ===
/** The value arithmetic of the slider: clamping into `[min, max]`
    (`_getValue`) and snapping to the step grid (`_getStepValue`). */
module ValueModel {
  import opened Common
  import opened JsNumbers

  /** The host's `min`, `max` and `step` props (defaults 0, 100 and 1). */
  datatype Bounds = Bounds(min: real, max: real, step: real)

  const DefaultBounds := Bounds(0.0, 100.0, 1.0)

  predicate InBounds(v: real, b: Bounds)
  {
    b.min <= v <= b.max
  }

  /** `_getValue`: a value below `min` becomes `min`, one above `max` becomes
      `max`. When `min <= max` the result is the point of `[min, max]`
      nearest to `v`. */
  function Clamp(b: Bounds, v: real): (r: real)
    ensures b.min <= b.max ==> InBounds(r, b)
    ensures InBounds(v, b) ==> r == v
    ensures b.min <= b.max ==> forall w :: InBounds(w, b) ==> Abs(r - v) <= Abs(w - v)
  {
    if v < b.min then b.min
    else if v > b.max then b.max
    else v
  }

  lemma ClampIdempotent(b: Bounds, v: real)
    requires b.min <= b.max
    ensures Clamp(b, Clamp(b, v)) == Clamp(b, v)
  {
  }

  /** `_getStepValue`: with `r` the JavaScript remainder `p % step`, the
      result is `p - r` when `r < step / 2` and `p - r + step` otherwise.
      It always lies on the step grid, less than one step from `p`; for a
      non-negative `p` it is a nearest grid point, ties rounding up. */
  function Snap(step: real, p: real): (q: real)
    requires step != 0.0
    ensures IsMultipleOf(q, step)
    ensures step > 0.0 ==> Abs(q - p) < step
    ensures step > 0.0 && p >= 0.0 ==> Abs(q - p) <= step / 2.0
    ensures step > 0.0 && p >= 0.0 && Abs(q - p) == step / 2.0 ==> q > p
  {
    var r := JsRem(p, step);
    if r < step / 2.0 then
      p - r
    else
      NextMultiple(p - r, step);
      p - r + step
  }

  /** A value already on the grid is left where it is. */
  lemma SnapFixesGrid(step: real, x: real)
    requires step > 0.0
    requires IsMultipleOf(x, step)
    ensures Snap(step, x) == x
  {
    assert IsMultipleOf(x - 0.0, step);
    JsRemUnique(x, step, 0.0);
  }

  /** The grid point `_getStepValue` picks, given the remainder `r` of `p`. */
  function Rounded(step: real, p: real, r: real): (q: real)
  {
    if r < step / 2.0 then p - r else p - r + step
  }

  lemma SnapIsRounded(step: real, p: real)
    requires step != 0.0
    ensures Snap(step, p) == Rounded(step, p, JsRem(p, step))
  {
  }

  /** For a non-negative position, `_getStepValue` picks a grid point at
      least as close as any other multiple `step * k`. */
  lemma SnapNearest(step: real, p: real, k: int)
    requires step > 0.0 && p >= 0.0
    ensures Abs(Snap(step, p) - p) <= Abs(step * k as real - p)
  {
    SnapIsRounded(step, p);
    RoundedNearest(step, p, JsRem(p, step), k);
  }

  /** With `p - r` on the grid and `0 <= r < step`, the multiples of the
      step are `p - r`, `p - r + step`, and points farther out; the rounded
      point is the nearer of the first two. */
  lemma RoundedNearest(step: real, p: real, r: real, k: int)
    requires step > 0.0
    requires 0.0 <= r < step
    requires IsMultipleOf(p - r, step)
    ensures Abs(Rounded(step, p, r) - p) <= Abs(step * k as real - p)
  {
    if k <= ((p - r) / step).Floor {
      BelowGrid(step, p - r, k);
    } else {
      AboveGrid(step, p - r, k);
    }
  }

  /** For a negative position the JavaScript remainder is never positive, so
      `_getStepValue` moves up to the least grid point not below `p`: the
      ceiling, which can be almost a whole step away, not the nearest point. */
  lemma SnapNegativeIsCeiling(step: real, p: real, k: int)
    requires step > 0.0 && p <= 0.0
    requires step * k as real >= p
    ensures p <= Snap(step, p) <= step * k as real
  {
    SnapIsRounded(step, p);
    RoundedCeiling(step, p, JsRem(p, step), k);
  }

  /** With `p - r` on the grid and `-step < r <= 0`, the rounded point is
      `p - r` itself, and the grid point below it lies below `p`; so every
      multiple not below `p` is at or above the rounded point. */
  lemma RoundedCeiling(step: real, p: real, r: real, k: int)
    requires step > 0.0
    requires -step < r <= 0.0
    requires IsMultipleOf(p - r, step)
    requires step * k as real >= p
    ensures p <= Rounded(step, p, r) <= step * k as real
  {
    var t := ((p - r) / step).Floor;
    IndexAbove(step, p - r, k);
    assert k > t - 1;
    AtOrAboveGrid(step, p - r, k);
  }

  /** A concrete case: with step 1, the position -1.9 snaps to -1, although
      -2 is nearer. */
  lemma SnapNegativeNotNearest()
    ensures Snap(1.0, -1.9) == -1.0
    ensures Abs(-2.0 - -1.9) < Abs(Snap(1.0, -1.9) - -1.9)
  {
    ProductIsMultiple(1.0, -1);
    assert IsMultipleOf(-1.9 - -0.9, 1.0);
    JsRemUnique(-1.9, 1.0, -0.9);
  }
}
